=== FILE: README.md ===
# Storyboard scene-list engine — Dafny model

This project models the state logic of a React video-storyboard editor. Each
state update of the app becomes a pure Dafny function from the old value to the
new one:

- the **scene list** (`Storyboard`): append a default scene, remove by id, move
  up/down with a clamped splice, drag-and-drop reorder, patch-merge update;
- the **app root** (`App`): the initial scenes and library, the total duration,
  and attaching a media item or an audio id to a scene;
- the **media library** (`MediaLibrary`): four categorised lists (`images`,
  `videos`, `audios`, `logos`) with batch append, removal by id and the
  recorder's append on stop;
- the **preview/export read-models** (`Preview`): preview length, clamped
  progress, current scene index, the simulated export's progress and
  `exporting` flag, and the branding-logo lookup.

Generic pieces live in `Seqs` (the two-step `splice` move, `filter`,
`findIndex`, a swap used as an independent reference), `Decimal` (how
`Scene ${n}` prints n) and `Wrappers` (`Option`, standing for `null` and for
`findIndex`'s `-1`).

Modelling choices:

- Durations and milliseconds are integers. Progress fractions are exact
  `real`s, and `Math.floor` is `.Floor`. `SceneIndexInIntegers` shows that, for a
  non-negative elapsed time and at least one scene, the index equals
  `min(elapsed * n div durationMs, n - 1)`.
- Ids are parameters. Nothing in the code makes them unique, so only the
  lemmas that need unique ids ask for them (`UniqueIds`).
- `Scene.media` holds whole library items, because the code appends the item
  object itself.
- A `Patch` covers the five fields the scene editor sends (title,
  description, transition, duration, audio id). Each field is optional.
- `MoveScene` asks for an index inside the list. The code always passes the
  index of a rendered row, so it never splices outside the array.
- The model follows the code, including where the code is looser than such an
  editor is often described:
  - The preview index is a uniform split of the playback time by scene count,
    not a cumulative-duration lookup (`UniformSplit`, `UniformSplitConverse`,
    `App.PreviewIgnoresSceneDurations`).
  - A non-positive duration is stored as given. The total duration just adds
    it.
  - Scene ids are not forced to be unique.
  - Export has no validation, no cancellation and no Pending/Failed/Cancelled
    states. It is a timer that turns `exporting` from true to false.
  - Titles are never renumbered (`App.TitlesNotRenumbered`).

## Model

| member | source | states |
|---|---|---|
| `Seqs.Move` | src/components/ScriptAndStoryboard.jsx:46-51 | the two splices form a permutation; the moved element lands at the target index; elements between the two indices shift one slot towards the vacated one; all other positions keep their elements |
| `Seqs.MoveInverse` | src/components/ScriptAndStoryboard.jsx:46-51 | a splice move from `to` back to `from` restores the original sequence |
| `Seqs.Filter` | src/components/ScriptAndStoryboard.jsx:15 | `filter` keeps exactly the kept elements, with their full multiplicity, as a subsequence of the input |
| `Seqs.FilterConcat` | src/components/ScriptAndStoryboard.jsx:15 | filtering distributes over concatenation, so relative order is preserved |
| `Seqs.FirstIndex` | src/components/ScriptAndStoryboard.jsx:43-44 | `findIndex` returns the first matching index, and is absent exactly when nothing matches |
| `Decimal.FromNat` | src/components/ScriptAndStoryboard.jsx:11 | the scene number is printed as a non-empty string of decimal digits with no leading zero except for 0 itself |
| `Decimal.ValueFromNat` | src/components/ScriptAndStoryboard.jsx:11 | the digits printed for the scene number read back as that number |
| `Storyboard.AddScene` | src/components/ScriptAndStoryboard.jsx:9-12 | exactly one scene is appended and earlier scenes are unchanged; the new scene has the given id, an empty description, `fade`, 5 seconds, no media and no audio; its title is `Scene ` followed by digits only, with no leading zero, that read back as its 1-based position |
| `Storyboard.RemoveScene` | src/components/ScriptAndStoryboard.jsx:14-16 | no scene with the id remains; every other scene keeps its multiplicity and relative order |
| `Storyboard.RemoveAbsentScene` | src/components/ScriptAndStoryboard.jsx:15 | removing an absent id leaves the list unchanged |
| `Storyboard.RemoveSceneIdempotent` | src/components/ScriptAndStoryboard.jsx:15 | removing twice equals removing once |
| `Storyboard.MoveScene` | src/components/ScriptAndStoryboard.jsx:18-26 | the result is a permutation; `up` swaps positions i-1 and i, or is a no-op at index 0; `down` swaps i and i+1, or is a no-op at the last index |
| `Storyboard.MoveUpThenDown` | src/components/ScriptAndStoryboard.jsx:18-26 | moving scene i up and then scene i-1 down restores the list |
| `Storyboard.FindScene` | src/components/ScriptAndStoryboard.jsx:43-44 | gives the index of the first scene with the id, or nothing when no scene has it |
| `Storyboard.DropScene` | src/components/ScriptAndStoryboard.jsx:39-53 | no-op for an empty source id, equal ids or a missing id; otherwise a permutation that puts the dragged scene at the target's former index, shifts the scenes in between by one and keeps the rest in place |
| `Storyboard.DropOnUpperIsMoveUp` | src/components/ScriptAndStoryboard.jsx:18-51 | with unique ids and a non-empty id on the dragged scene, dropping scene i onto scene i-1 gives the same list as the keyboard move up |
| `Storyboard.DropOnLowerIsMoveDown` | src/components/ScriptAndStoryboard.jsx:18-51 | with unique ids and a non-empty id on the dragged scene, dropping scene i onto scene i+1 gives the same list as the keyboard move down |
| `Storyboard.DropInverse` | src/components/ScriptAndStoryboard.jsx:46-51 | with unique ids, dropping the moved scene back onto the scene now in its old slot undoes the drop |
| `Storyboard.MapMatching` | src/components/ScriptAndStoryboard.jsx:71 | the shared "rewrite the scenes with this id" step keeps the other scenes in place, and keeps the id order whenever the rewrite keeps ids |
| `Storyboard.MapMatchingTwice` | src/components/ScriptAndStoryboard.jsx:71 | two id-keeping rewrites of the same id compose into one, so repeated edits and assignments of a scene reduce to a single rewrite |
| `Storyboard.ApplyPatch` | src/components/ScriptAndStoryboard.jsx:71 | each patched field takes the patch value and each unpatched field keeps its value; id and media are never changed |
| `Storyboard.UpdateScene` | src/components/ScriptAndStoryboard.jsx:70-72 | only scenes with the id change, and only in their patched fields; length and id order are preserved |
| `Storyboard.UpdateSceneIdempotent` | src/components/ScriptAndStoryboard.jsx:71 | applying the same patch twice equals applying it once |
| `Storyboard.UpdateAbsentScene` | src/components/ScriptAndStoryboard.jsx:71 | patching an absent id leaves the list unchanged |
| `App.TotalDuration` | src/App.jsx:23 | with non-negative durations the total is non-negative and at least each scene's duration |
| `App.TotalConcat` | src/App.jsx:23 | the total of two concatenated lists is the sum of their totals |
| `App.TotalPermutation` | src/App.jsx:23 | any two lists with the same multiset of scenes have the same total |
| `App.TotalAfterMove` | src/App.jsx:23 | a keyboard move keeps the total |
| `App.TotalAfterDrop` | src/App.jsx:23 | a drag-and-drop keeps the total |
| `App.TotalAfterAdd` | src/App.jsx:23 | adding a scene adds 5 to the total |
| `App.InitialTotal` | src/App.jsx:10-23 | the initial scenes (5, 7 and 6 seconds) total 18 |
| `App.DropThirdOntoFirst` | src/App.jsx:10-14 | dropping `s3` onto `s1` in the initial list gives durations 6, 5, 7, still totalling 18 |
| `App.TitlesNotRenumbered` | src/components/ScriptAndStoryboard.jsx:11 | after removing `s1`, a new scene gets the title `Scene 3`, which another scene already has |
| `App.AssignMedia` | src/App.jsx:25-27 | every scene with the id gets the item appended to its media, with all other fields unchanged; other scenes, the length and the id order are unchanged |
| `App.AssignMediaKeepsDuplicates` | src/App.jsx:26 | attaching the same item twice leaves two copies at the end of the media |
| `App.AssignAudio` | src/App.jsx:29-31 | every scene with the id gets the audio id, with all other fields unchanged; other scenes, the length and the id order are unchanged |
| `App.AssignAudioLastWins` | src/App.jsx:30 | the second of two assignments wins; repeating an assignment changes nothing |
| `App.AssignAudioIsPatch` | src/App.jsx:30 | assigning audio equals an editor patch that changes only the audio id |
| `App.TotalMapMatching` | src/App.jsx:23 | rewriting matching scenes without changing durations keeps the total |
| `App.AssignKeepsTimeline` | src/App.jsx:23-31 | neither assignment changes the id order or the total duration |
| `App.RemoveLibraryItem` | src/components/MediaVoicePanel.jsx:54-56 | removing a library item leaves the scenes untouched; the category no longer holds the id; other categories are unchanged |
| `App.RemovalLeavesDanglingMedia` | src/components/MediaVoicePanel.jsx:54-56 | a scene that holds a removed item still refers to it after the library drops it |
| `App.PreviewIgnoresSceneDurations` | src/components/PreviewExport.jsx:31 | 5.5 s into the initial storyboard, the preview still shows the first scene, which lasts only 5 s |
| `MediaLibrary.ItemType` | src/components/MediaVoicePanel.jsx:20 | an item's type is the category key without its final `s` |
| `MediaLibrary.ItemTypeNames` | src/components/MediaVoicePanel.jsx:20 | the four item types are `image`, `video`, `audio` and `logo` |
| `MediaLibrary.AddFiles` | src/components/MediaVoicePanel.jsx:19-22 | one item per file is appended after the category's existing items, in file order, with the file's id, name and URL and the category's item type; other categories are unchanged |
| `MediaLibrary.RemoveItem` | src/components/MediaVoicePanel.jsx:54-56 | no item with the id is left in that category; the others keep their multiplicity and relative order; other categories are unchanged |
| `MediaLibrary.RemoveAbsentItem` | src/components/MediaVoicePanel.jsx:55 | removing an absent id leaves the library unchanged |
| `MediaLibrary.RemoveItemIdempotent` | src/components/MediaVoicePanel.jsx:55 | removing twice equals removing once |
| `MediaLibrary.RemoveAfterAdd` | src/components/MediaVoicePanel.jsx:54-56 | removal from old items plus a new batch equals the old survivors followed by the batch survivors |
| `MediaLibrary.RecordingStopped` | src/components/MediaVoicePanel.jsx:33-34 | a finished recording appends exactly one `audio` item to `audios`; other categories are unchanged |
| `MediaLibrary.RecordingIsAudioUpload` | src/components/MediaVoicePanel.jsx:19-34 | a recording is stored exactly as a one-file audio upload with the same id, name and URL |
| `Preview.ClampedRatio` | src/components/PreviewExport.jsx:29 | the clamped ratio is at most 1, non-negative for a non-negative numerator, equal to 1 exactly when the numerator reaches the denominator, and otherwise the exact quotient |
| `Preview.ClampedRatioMonotone` | src/components/PreviewExport.jsx:29 | the clamped ratio never decreases as the numerator grows |
| `Preview.PreviewDurationMs` | src/components/PreviewExport.jsx:26 | the preview lasts at least 1000 ms, a whole number of seconds, and exactly the total duration when that is at least 1 s |
| `Preview.PreviewProgress` | src/components/PreviewExport.jsx:29 | preview progress lies in [0, 1] for non-negative elapsed time and reaches 1 exactly at the preview length |
| `Preview.SceneIndex` | src/components/PreviewExport.jsx:31 | for n ≥ 1 and progress in [0, 1] the index is in [0, n-1]; it is n-1 at progress 1 and -1 with no scenes; below n-1 it is the floor of progress × n |
| `Preview.SceneIndexMonotone` | src/components/PreviewExport.jsx:31 | the index never decreases as progress grows |
| `Preview.SceneIndexInIntegers` | src/components/PreviewExport.jsx:26-31 | for a non-negative elapsed time and at least one scene, the index equals `min(elapsed * n div durationMs, n - 1)` |
| `Preview.UniformSplit` | src/components/PreviewExport.jsx:31 | every moment of the k-th of n equal shares of the preview length shows scene k |
| `Preview.UniformSplitConverse` | src/components/PreviewExport.jsx:31 | before the preview length is reached, scene k is shown only during the k-th share; together with `UniformSplit` this is an if-and-only-if |
| `Preview.PreviewTick` | src/components/PreviewExport.jsx:27-34 | a frame keeps playing exactly while progress is below 1, that is before the preview length; for a non-negative elapsed time and at least one scene, its index is a valid scene, and the last scene once playback stops |
| `Preview.PreviewTickMonotone` | src/components/PreviewExport.jsx:27-34 | later frames have no smaller progress and no earlier scene |
| `Preview.ExportProgress` | src/components/PreviewExport.jsx:44-47 | export progress is in [0, 1] after the start and is 1 exactly from 3000 ms on |
| `Preview.StartExport` | src/components/PreviewExport.jsx:40-43 | starting sets `exporting` and resets progress to 0 |
| `Preview.ExportTick` | src/components/PreviewExport.jsx:46-51 | a tick sets progress to the clamped elapsed fraction and clears `exporting` exactly when 3000 ms have passed; after completion nothing changes |
| `Preview.RunExport` | src/components/PreviewExport.jsx:46-54 | after any sequence of interval firings the export is still running exactly when no tick came 3000 ms or more after the start; a finished export shows progress 1; a running one shows the fraction of its latest tick, or 0 before any tick |
| `Preview.ProgressFollowsClock` | src/components/PreviewExport.jsx:45-48 | progress is computed from the clock at each tick, so a clock that steps back makes the bar step back |
| `Preview.ExportInvariant` | src/components/PreviewExport.jsx:40-54 | for ticks at or after the start, progress stays in [0, 1]; `exporting` is false exactly when progress is 1, that is when some tick came 3000 ms or more after the start |
| `Preview.ExportMonotone` | src/components/PreviewExport.jsx:46-49 | on a clock that never runs backwards, export progress never decreases from one tick to a later one |
| `Preview.FindLogo` | src/components/PreviewExport.jsx:20 | returns the first logo with the id, or nothing exactly when no logo has it |
| `Preview.RemovedLogoNotFound` | src/components/PreviewExport.jsx:20 | after the logo with an id is removed from the library, the lookup for that id finds nothing |
| `Preview.UploadedLogoFound` | src/components/PreviewExport.jsx:20 | a newly uploaded logo whose id no stored logo has is found by its id, with item type `logo` |
| `Preview.NoLogoSelected` | src/components/PreviewExport.jsx:16-20 | with the initial empty logo id and no logo with an empty id, no logo is found |

## Left out

- Hero and Modal components: presentation only (3D scene, focus handling, the Escape key).
- JSX markup, CSS, and the drag events' `dataTransfer` plumbing. Only the resulting index splice is modelled.
- `aiAssist`: it appends a constant paragraph to the script, so there is no state logic to state.
- Id generation (`Math.random`, `crypto.randomUUID`), object URLs, `File`/`Blob`, `getUserMedia`, `MediaRecorder` and stopping stream tracks: browser I/O. Ids, names and URLs are parameters.
- `alert` and `console.error`: side effects with no state.
- Timers (`requestAnimationFrame`, `setInterval`, `performance.now`, `Date.now`): elapsed time and tick times are integer inputs. Two exports started at once, each with its own interval, are concurrency and are not modelled.
- The preview and the export write to the same `progress` state. Each is modelled on its own.
- `Math.round` for the percentage label: display only.
- The export options record (resolution, format, watermark, branding flag): only `logoId` takes part in any logic, through the logo lookup.
- The stale render-time `scenes` against `prev` in `onDrop`: this is React scheduling. `DropScene` computes the indices on the list it updates.
- The editor turning form values into patches (`Number(value)`, `value || null`): the patch is taken as given.
- `App.TotalDuration`: durations are integers, so `Number(d || 0)` is the identity; `NaN` and fractional seconds are not modelled.
- `Preview.PreviewProgress`: exact rational arithmetic replaces floating-point division, so rounding of `pct` is not modelled.
- `Preview.PreviewTick`: a negative elapsed time, such as a frame stamped before the start, is not covered. There the index is -1 and the panel would show no scene.
- `Preview.SceneIndex`: computed on exact reals, not on floating-point products.
- `Preview.ExportInvariant`: assumes every tick comes at or after the start time. The code reads wall-clock time, which can be set back; a tick before the start would give negative progress.
- `Preview.ExportMonotone`: assumes tick times never decrease. With a wall clock that steps back, progress steps back too (`Preview.ProgressFollowsClock`).

=== FILE: app.dfy ===
/** Application-level state: the initial scenes and library, the total
    duration shown in the header and footer, and the two handlers that attach
    library items to a scene. */
module App {
  import opened Wrappers
  import opened Seqs
  import opened MediaLibrary
  import opened Storyboard
  import Preview

  /** The three scenes the editor starts with. */
  const InitialScenes: seq<Scene> := [
    Scene("s1", "Scene 1", "Hook the audience", Fade, 5, [], None),
    Scene("s2", "Scene 2", "Key points with visuals", Slide, 7, [], None),
    Scene("s3", "Scene 3", "Summary & CTA", CrossZoom, 6, [], None)
  ]

  /** Both pieces of state the root component owns. */
  datatype Session = Session(scenes: seq<Scene>, library: Library)

  /** The sum of the scenes' durations, accumulated from the first scene to
      the last; a zero duration contributes zero. */
  function TotalDuration(s: seq<Scene>): (r: int)
    ensures (forall k :: 0 <= k < |s| ==> s[k].duration >= 0) ==>
      r >= 0 && forall k :: 0 <= k < |s| ==> s[k].duration <= r
  {
    if |s| == 0 then 0 else TotalDuration(s[..|s| - 1]) + s[|s| - 1].duration
  }

  /** The total of a concatenation is the sum of the totals. */
  lemma {:induction false} TotalConcat(a: seq<Scene>, b: seq<Scene>)
    ensures TotalDuration(a + b) == TotalDuration(a) + TotalDuration(b)
  {
    if |b| == 0 {
      assert a + b == a;
    } else {
      assert (a + b)[..|a + b| - 1] == a + b[..|b| - 1];
      TotalConcat(a, b[..|b| - 1]);
    }
  }

  /** Reordering scenes never changes the total duration. */
  lemma {:induction false} TotalPermutation(a: seq<Scene>, b: seq<Scene>)
    requires multiset(a) == multiset(b)
    ensures TotalDuration(a) == TotalDuration(b)
    decreases |a|
  {
    if |a| == 0 {
      assert |b| == |multiset(b)| == 0;
    } else {
      var x := a[|a| - 1];
      var a' := a[..|a| - 1];
      assert a == a' + [x];
      assert multiset(a) == multiset(a') + multiset{x};
      assert x in multiset(b);
      var j :| 0 <= j < |b| && b[j] == x;
      var b' := b[..j] + b[j + 1..];
      MultisetSplit(b, j);
      CancelOne(multiset(a'), multiset(b'), x);
      TotalPermutation(a', b');
      TotalRemoveAt(b, j);
    }
  }

  lemma CancelOne(m: multiset<Scene>, n: multiset<Scene>, x: Scene)
    requires m + multiset{x} == n + multiset{x}
    ensures m == n
  {
    assert m == m + multiset{x} - multiset{x};
    assert n == n + multiset{x} - multiset{x};
  }

  /** Taking one scene out lowers the total by its duration. */
  lemma TotalRemoveAt(b: seq<Scene>, j: nat)
    requires j < |b|
    ensures TotalDuration(b) == TotalDuration(b[..j] + b[j + 1..]) + b[j].duration
  {
    var p := b[..j];
    var q := b[j + 1..];
    var px := b[..j + 1];
    assert b == px + q;
    assert px[..|px| - 1] == p;
    assert px[|px| - 1] == b[j];
    assert TotalDuration(px) == TotalDuration(p) + b[j].duration;
    TotalConcat(px, q);
    TotalConcat(p, q);
  }

  lemma MultisetSplit(b: seq<Scene>, j: nat)
    requires j < |b|
    ensures multiset(b) == multiset(b[..j] + b[j + 1..]) + multiset{b[j]}
  {
    assert b == b[..j] + [b[j]] + b[j + 1..];
  }

  /** Keyboard moves keep the total duration. */
  lemma TotalAfterMove(s: seq<Scene>, i: nat, dir: Direction)
    requires i < |s|
    ensures TotalDuration(MoveScene(s, i, dir)) == TotalDuration(s)
  {
    TotalPermutation(MoveScene(s, i, dir), s);
  }

  /** Drag-and-drop moves keep the total duration. */
  lemma TotalAfterDrop(s: seq<Scene>, sourceId: string, targetId: string)
    ensures TotalDuration(DropScene(s, sourceId, targetId)) == TotalDuration(s)
  {
    TotalPermutation(DropScene(s, sourceId, targetId), s);
  }

  /** Adding a scene adds its default five seconds. */
  lemma TotalAfterAdd(s: seq<Scene>, newId: string)
    ensures TotalDuration(AddScene(s, newId)) == TotalDuration(s) + 5
  {
    var r := AddScene(s, newId);
    assert r[..|r| - 1] == s;
  }

  /** The starting storyboard runs 5 + 7 + 6 seconds. */
  lemma InitialTotal()
    ensures TotalDuration(InitialScenes) == 18
  {
    var s := InitialScenes;
    assert s[..2][..1][..0] == [];
    assert TotalDuration(s[..2][..1]) == 5;
    assert TotalDuration(s[..2]) == 12;
  }

  /** Dragging the third initial scene onto the first gives durations 6, 5, 7
      and the total stays 18. */
  lemma DropThirdOntoFirst()
    ensures var r := DropScene(InitialScenes, "s3", "s1");
      |r| == 3 && r[0].duration == 6 && r[1].duration == 5 && r[2].duration == 7
      && TotalDuration(r) == 18
  {
    assert FindScene(InitialScenes, "s3") == Some(2);
    assert FindScene(InitialScenes, "s1") == Some(0);
    InitialTotal();
    TotalAfterDrop(InitialScenes, "s3", "s1");
  }

  /** Titles are never renumbered: after removing the first initial scene,
      a newly added scene repeats the title of the last one. */
  lemma TitlesNotRenumbered(newId: string)
    ensures var r := AddScene(RemoveScene(InitialScenes, "s1"), newId);
      |r| == 3 && r[2].title == r[1].title == "Scene 3"
  {
    RemoveFirstInitial();
    var r := AddScene(InitialScenes[1..], newId);
    assert r[2] == NewScene(newId, 2);
    assert Decimal.FromNat(3) == "3";
  }

  /** Removing `s1` from the initial scenes leaves the other two. */
  lemma RemoveFirstInitial()
    ensures RemoveScene(InitialScenes, "s1") == InitialScenes[1..]
  {
    var keep := (x: Scene) => x.id != "s1";
    var tail := InitialScenes[1..];
    assert InitialScenes == [InitialScenes[0]] + tail;
    FilterConcat([InitialScenes[0]], tail, keep);
    assert Filter([InitialScenes[0]], keep) == [];
    FilterKeepsAll(tail, keep);
  }

  /** `handleAssignMediaToScene`: the item appended to the media of every
      scene with the id; every other scene and every other field unchanged. */
  function AssignMedia(s: seq<Scene>, sceneId: string, item: MediaItem): (r: seq<Scene>)
    ensures |r| == |s| && Ids(r) == Ids(s)
    ensures forall k :: 0 <= k < |s| && s[k].id != sceneId ==> r[k] == s[k]
    ensures forall k :: 0 <= k < |s| && s[k].id == sceneId ==>
      r[k].media == s[k].media + [item] && r[k] == s[k].(media := r[k].media)
  {
    MapMatching(s, sceneId, (sc: Scene) => sc.(media := sc.media + [item]))
  }

  /** Attaching the same item twice keeps both copies, in order. */
  lemma AssignMediaKeepsDuplicates(s: seq<Scene>, sceneId: string, item: MediaItem, k: nat)
    requires k < |s| && s[k].id == sceneId
    ensures AssignMedia(AssignMedia(s, sceneId, item), sceneId, item)[k].media == s[k].media + [item, item]
  {
    var once := AssignMedia(s, sceneId, item);
    assert once[k].id == sceneId;
  }

  /** `handleAssignAudioToScene`: the audio id of every scene with the id
      replaced; every other scene and every other field unchanged. */
  function AssignAudio(s: seq<Scene>, sceneId: string, audioId: Option<string>): (r: seq<Scene>)
    ensures |r| == |s| && Ids(r) == Ids(s)
    ensures forall k :: 0 <= k < |s| && s[k].id != sceneId ==> r[k] == s[k]
    ensures forall k :: 0 <= k < |s| && s[k].id == sceneId ==>
      r[k].audioId == audioId && r[k] == s[k].(audioId := audioId)
  {
    MapMatching(s, sceneId, (sc: Scene) => sc.(audioId := audioId))
  }

  /** The last audio assignment wins, and repeating one changes nothing. */
  lemma AssignAudioLastWins(s: seq<Scene>, sceneId: string, a: Option<string>, b: Option<string>)
    ensures AssignAudio(AssignAudio(s, sceneId, a), sceneId, b) == AssignAudio(s, sceneId, b)
    ensures AssignAudio(AssignAudio(s, sceneId, a), sceneId, a) == AssignAudio(s, sceneId, a)
  {
    var setA := (sc: Scene) => sc.(audioId := a);
    var setB := (sc: Scene) => sc.(audioId := b);
    MapMatchingTwice(s, sceneId, setA, setB, setB);
    MapMatchingTwice(s, sceneId, setA, setA, setA);
  }

  /** Assigning audio is the editor's audio-only patch. */
  lemma AssignAudioIsPatch(s: seq<Scene>, sceneId: string, audioId: Option<string>)
    ensures AssignAudio(s, sceneId, audioId) == UpdateScene(s, sceneId, Patch(None, None, None, None, Some(audioId)))
  {
  }

  /** Rewriting matching scenes without touching durations keeps the total. */
  lemma {:induction false} TotalMapMatching(s: seq<Scene>, id: string, f: Scene -> Scene)
    requires forall sc :: f(sc).duration == sc.duration
    ensures TotalDuration(MapMatching(s, id, f)) == TotalDuration(s)
  {
    if |s| > 0 {
      var r := MapMatching(s, id, f);
      assert r[..|r| - 1] == MapMatching(s[..|s| - 1], id, f);
      TotalMapMatching(s[..|s| - 1], id, f);
    }
  }

  /** Neither assignment changes the scene count, the ids in order or the
      total duration. */
  lemma AssignKeepsTimeline(s: seq<Scene>, sceneId: string, item: MediaItem, audioId: Option<string>)
    ensures Ids(AssignMedia(s, sceneId, item)) == Ids(s)
    ensures Ids(AssignAudio(s, sceneId, audioId)) == Ids(s)
    ensures TotalDuration(AssignMedia(s, sceneId, item)) == TotalDuration(s)
    ensures TotalDuration(AssignAudio(s, sceneId, audioId)) == TotalDuration(s)
  {
    TotalMapMatching(s, sceneId, (sc: Scene) => sc.(media := sc.media + [item]));
    TotalMapMatching(s, sceneId, (sc: Scene) => sc.(audioId := audioId));
  }

  /** `removeItem` only replaces the library: a scene that holds the removed
      item keeps it, although the library no longer lists it. */
  function RemoveLibraryItem(st: Session, c: Category, id: string): (r: Session)
    ensures r.scenes == st.scenes
    ensures forall k :: 0 <= k < |Items(r.library, c)| ==> Items(r.library, c)[k].id != id
    ensures forall d :: d != c ==> Items(r.library, d) == Items(st.library, d)
  {
    st.(library := RemoveItem(st.library, c, id))
  }

  /** A media reference left dangling by a library removal. */
  lemma RemovalLeavesDanglingMedia(st: Session, c: Category, k: nat, m: nat)
    requires k < |st.scenes| && m < |st.scenes[k].media|
    ensures var id := st.scenes[k].media[m].id;
      var r := RemoveLibraryItem(st, c, id);
      r.scenes[k].media[m].id == id && forall j :: 0 <= j < |Items(r.library, c)| ==> Items(r.library, c)[j].id != id
  {
  }

  /** The preview gives every scene an equal share of the playback time: 5.5
      seconds into the initial storyboard it still shows the first scene,
      although that scene lasts only 5 seconds. */
  lemma PreviewIgnoresSceneDurations()
    ensures InitialScenes[0].duration * 1000 < 5500
    ensures Preview.PreviewTick(5500, TotalDuration(InitialScenes), |InitialScenes|).index == 0
  {
    InitialTotal();
    Preview.SceneIndexInIntegers(5500, 18, 3);
  }
}

=== FILE: decimal.dfy ===
/** Decimal rendering of natural numbers, as a template literal `${n}` prints
    them, with the digit-reading function it inverts. */
module Decimal {

  predicate IsDigit(c: char) { '0' <= c <= '9' }

  function DigitChar(d: nat): (c: char)
    requires d < 10
    ensures IsDigit(c)
    ensures (c as int) - ('0' as int) == d
  {
    ('0' as int + d) as char
  }

  /** Base-10 digits of n, most significant first, without leading zeros. */
  function FromNat(n: nat): (r: string)
    ensures |r| >= 1
    ensures forall k :: 0 <= k < |r| ==> IsDigit(r[k])
    ensures r[0] == '0' ==> n == 0
  {
    if n < 10 then [DigitChar(n)] else FromNat(n / 10) + [DigitChar(n % 10)]
  }

  /** The number a string of digits denotes, read left to right. */
  function Value(s: string): int
  {
    if |s| == 0 then 0 else 10 * Value(s[..|s| - 1]) + ((s[|s| - 1] as int) - ('0' as int))
  }

  /** Reading the printed digits back gives the number. */
  lemma {:induction false} ValueFromNat(n: nat)
    ensures Value(FromNat(n)) == n
  {
    if n >= 10 {
      var p := FromNat(n / 10);
      var r := p + [DigitChar(n % 10)];
      assert r[..|r| - 1] == p;
      ValueFromNat(n / 10);
    }
  }
}

=== FILE: media.dfy ===
/** The media library of the media & voiceover panel: four categorised lists
    of uploaded or recorded items, with batch append and removal by id. */
module MediaLibrary {
  import opened Seqs

  /** The four keys of the library record. */
  datatype Category = Images | Videos | Audios | Logos

  /** The property name of a category in the library record. */
  function Key(c: Category): string
  {
    match c
    case Images => "images"
    case Videos => "videos"
    case Audios => "audios"
    case Logos => "logos"
  }

  /** The `type` field stamped on an item of category c: the key with its last
      character sliced off. */
  function ItemType(c: Category): (t: string)
    ensures t + "s" == Key(c)
  {
    DropLast(Key(c))
  }

  /** A library entry; `kind` is the source's `type` field and `url` the object
      URL handle. The file object itself is not modelled. */
  datatype MediaItem = MediaItem(id: string, name: string, url: string, kind: string)

  /** One picked file, with the id and object URL generated for it. */
  datatype Upload = Upload(id: string, name: string, url: string)

  datatype Library = Library(images: seq<MediaItem>, videos: seq<MediaItem>, audios: seq<MediaItem>, logos: seq<MediaItem>)

  /** The library on first render: every category empty. */
  const EmptyLibrary := Library([], [], [], [])

  /** The items stored under category c. */
  function Items(lib: Library, c: Category): seq<MediaItem>
  {
    match c
    case Images => lib.images
    case Videos => lib.videos
    case Audios => lib.audios
    case Logos => lib.logos
  }

  /** The library with category c replaced by items and the others kept. */
  function WithItems(lib: Library, c: Category, items: seq<MediaItem>): (r: Library)
    ensures Items(r, c) == items
    ensures forall d :: d != c ==> Items(r, d) == Items(lib, d)
  {
    match c
    case Images => lib.(images := items)
    case Videos => lib.(videos := items)
    case Audios => lib.(audios := items)
    case Logos => lib.(logos := items)
  }

  /** The item built for an uploaded file of category c. */
  function ItemOf(u: Upload, c: Category): MediaItem
  {
    MediaItem(u.id, u.name, u.url, ItemType(c))
  }

  /** `handleFiles`: one item per file, in file order, appended after the
      existing items of category c; the other categories are untouched. */
  function AddFiles(lib: Library, c: Category, files: seq<Upload>): (r: Library)
    ensures |Items(r, c)| == |Items(lib, c)| + |files|
    ensures Items(r, c)[..|Items(lib, c)|] == Items(lib, c)
    ensures forall k :: 0 <= k < |files| ==>
      var item := Items(r, c)[|Items(lib, c)| + k];
      item.id == files[k].id && item.name == files[k].name && item.url == files[k].url && item.kind + "s" == Key(c)
    ensures forall d :: d != c ==> Items(r, d) == Items(lib, d)
  {
    var before := Items(lib, c);
    var added := seq(|files|, k requires 0 <= k < |files| => ItemOf(files[k], c));
    var items := before + added;
    assert items[..|before|] == before;
    WithItems(lib, c, items)
  }

  /** `removeItem`: every item of category c with the given id is dropped,
      the remaining items keep their relative order, and the other
      categories are untouched. */
  function RemoveItem(lib: Library, c: Category, id: string): (r: Library)
    ensures forall k :: 0 <= k < |Items(r, c)| ==> Items(r, c)[k].id != id
    ensures forall x :: multiset(Items(r, c))[x] == if x.id != id then multiset(Items(lib, c))[x] else 0
    ensures IsSubsequence(Items(r, c), Items(lib, c))
    ensures forall d :: d != c ==> Items(r, d) == Items(lib, d)
  {
    WithItems(lib, c, Filter(Items(lib, c), (x: MediaItem) => x.id != id))
  }

  /** The recorder's `onstop`: exactly one `audio` item appended to `audios`. */
  function RecordingStopped(lib: Library, id: string, name: string, url: string): (r: Library)
    ensures Items(r, Audios) == Items(lib, Audios) + [MediaItem(id, name, url, "audio")]
    ensures forall d :: d != Audios ==> Items(r, d) == Items(lib, d)
  {
    WithItems(lib, Audios, lib.audios + [MediaItem(id, name, url, "audio")])
  }

  /** The item types the four categories produce. */
  lemma ItemTypeNames()
    ensures ItemType(Images) == "image" && ItemType(Videos) == "video"
    ensures ItemType(Audios) == "audio" && ItemType(Logos) == "logo"
  {
  }

  /** A finished recording is stored exactly as an uploaded audio file with
      the same id, name and URL would be. */
  lemma RecordingIsAudioUpload(lib: Library, id: string, name: string, url: string)
    ensures RecordingStopped(lib, id, name, url) == AddFiles(lib, Audios, [Upload(id, name, url)])
  {
    ItemTypeNames();
  }

  /** Removing an id no item of the category carries changes nothing. */
  lemma RemoveAbsentItem(lib: Library, c: Category, id: string)
    requires forall k :: 0 <= k < |Items(lib, c)| ==> Items(lib, c)[k].id != id
    ensures RemoveItem(lib, c, id) == lib
  {
    FilterKeepsAll(Items(lib, c), (x: MediaItem) => x.id != id);
    match c
    case Images =>
    case Videos =>
    case Audios =>
    case Logos =>
  }

  /** Removing the same id twice is removing it once. */
  lemma RemoveItemIdempotent(lib: Library, c: Category, id: string)
    ensures RemoveItem(RemoveItem(lib, c, id), c, id) == RemoveItem(lib, c, id)
  {
    RemoveAbsentItem(RemoveItem(lib, c, id), c, id);
  }

  /** Removal acts on the stored items and on a newly appended batch
      independently: the survivors of the old items come first. */
  lemma RemoveAfterAdd(lib: Library, c: Category, files: seq<Upload>, id: string)
    ensures Items(RemoveItem(AddFiles(lib, c, files), c, id), c)
         == Items(RemoveItem(lib, c, id), c) + Items(RemoveItem(AddFiles(EmptyLibrary, c, files), c, id), c)
  {
    var added := AddFiles(lib, c, files);
    var batch := AddFiles(EmptyLibrary, c, files);
    assert Items(added, c) == Items(lib, c) + Items(batch, c);
    FilterConcat(Items(lib, c), Items(batch, c), (x: MediaItem) => x.id != id);
  }
}

=== FILE: preview.dfy ===
/** Read-models of the preview & export panel: the preview tick's progress and
    current scene, the simulated export progress with its `exporting` flag,
    and the branding logo lookup. Fractions are exact reals. */
module Preview {
  import opened Wrappers
  import opened Seqs
  import opened MediaLibrary

  /** The quotient num / den capped at 1: the fraction both progress bars use. */
  function ClampedRatio(num: int, den: int): (r: real)
    requires den > 0
    ensures r <= 1.0
    ensures num >= 0 ==> r >= 0.0
    ensures r == 1.0 <==> num >= den
    ensures r < 1.0 ==> r * (den as real) == num as real
  {
    var q := (num as real) / (den as real);
    if q < 1.0 then q else 1.0
  }

  /** A later numerator never yields a smaller ratio. */
  lemma ClampedRatioMonotone(a: int, b: int, den: int)
    requires den > 0 && a <= b
    ensures ClampedRatio(a, den) <= ClampedRatio(b, den)
  {
    QuotientMonotone(a, b, den);
  }

  lemma QuotientMonotone(a: int, b: int, den: int)
    requires den > 0 && a <= b
    ensures (a as real) / (den as real) <= (b as real) / (den as real)
  {
    var qa := (a as real) / (den as real);
    var qb := (b as real) / (den as real);
    assert qb - qa == ((b - a) as real) / (den as real);
  }

  /** The preview length in milliseconds: the total duration in seconds, but
      never less than one second. */
  function PreviewDurationMs(totalDuration: int): (r: int)
    ensures r >= 1000 && r % 1000 == 0
    ensures totalDuration >= 1 ==> r == totalDuration * 1000
    ensures totalDuration < 1 ==> r == 1000
  {
    Max(totalDuration, 1) * 1000
  }

  /** Preview progress after `elapsed` milliseconds. */
  function PreviewProgress(elapsed: int, totalDuration: int): (r: real)
    ensures r <= 1.0
    ensures elapsed >= 0 ==> r >= 0.0
    ensures r == 1.0 <==> elapsed >= PreviewDurationMs(totalDuration)
  {
    ClampedRatio(elapsed, PreviewDurationMs(totalDuration))
  }

  /** The scene shown at progress pct: progress times the scene count, rounded
      down and capped at the last scene. The preview thus splits its time
      evenly between the n scenes; -1 when there are none. */
  function SceneIndex(pct: real, n: nat): (r: int)
    ensures n >= 1 && 0.0 <= pct <= 1.0 ==> 0 <= r < n
    ensures n >= 1 && pct == 1.0 ==> r == n - 1
    ensures n == 0 && 0.0 <= pct <= 1.0 ==> r == -1
    ensures r < n - 1 ==> (r as real) <= pct * (n as real) < (r + 1) as real
    ensures r == n - 1 ==> ((n - 1) as real) <= pct * (n as real)
  {
    var x := pct * (n as real);
    assert 0.0 <= pct ==> 0.0 <= x by {
      if 0.0 <= pct {
        MulNonnegative(pct, n as real);
      }
    }
    Min(x.Floor, n - 1)
  }

  /** A later progress never shows an earlier scene. */
  lemma SceneIndexMonotone(p: real, q: real, n: nat)
    requires p <= q
    ensures SceneIndex(p, n) <= SceneIndex(q, n)
  {
    assert q * (n as real) - p * (n as real) == (q - p) * (n as real);
    MulNonnegative(q - p, n as real);
  }

  lemma MulNonnegative(x: real, y: real)
    requires x >= 0.0 && y >= 0.0
    ensures x * y >= 0.0
  {
  }

  /** The exact real quotient of naturals rounds down to integer division. */
  lemma FloorOfQuotient(a: int, d: int)
    requires a >= 0 && d > 0
    ensures ((a as real) / (d as real)).Floor == a / d
  {
    var q := a / d;
    var m := a % d;
    assert a == q * d + m && 0 <= m < d;
    assert (a as real) == (q as real) * (d as real) + (m as real);
    assert (a as real) / (d as real) == (q as real) + (m as real) / (d as real);
    assert 0.0 <= (m as real) / (d as real) < 1.0;
  }

  /** The preview's scene index in integer arithmetic:
      `min(elapsed * n div durationMs, n - 1)` for elapsed >= 0. */
  lemma SceneIndexInIntegers(elapsed: int, totalDuration: int, n: nat)
    requires elapsed >= 0 && n >= 1
    ensures SceneIndex(PreviewProgress(elapsed, totalDuration), n)
         == Min(elapsed * n / PreviewDurationMs(totalDuration), n - 1)
  {
    var d := PreviewDurationMs(totalDuration);
    if elapsed < d {
      ScaledQuotient(elapsed, n, d);
      FloorOfQuotient(elapsed * n, d);
    } else {
      DivAtLeast(elapsed, n, d);
    }
  }

  lemma ScaledQuotient(e: int, n: nat, d: int)
    requires d > 0
    ensures ((e as real) / (d as real)) * (n as real) == ((e * n) as real) / (d as real)
  {
  }

  lemma DivAtLeast(e: int, n: nat, d: int)
    requires d > 0 && e >= d
    ensures e * n / d >= n
  {
    var q := e * n / d;
    assert e * n == q * d + (e * n) % d;
    MulMonotone(d, e, n);
    assert d * n == n * d;
    assert (q + 1) * d == q * d + d;
    LessFromMul(n, q + 1, d);
  }

  lemma MulMonotone(x: int, y: int, d: int)
    requires x <= y && d >= 0
    ensures x * d <= y * d
  {
    assert y * d - x * d == (y - x) * d;
  }

  lemma LessFromMul(x: int, y: int, d: int)
    requires d > 0 && x * d < y * d
    ensures x < y
  {
    if x >= y {
      MulMonotone(y, x, d);
    }
  }

  /** Every moment of scene k's equal share [k * D / n, (k + 1) * D / n)
      of the preview length D shows scene k, whatever the scenes' own
      durations are; UniformSplitConverse gives the other direction. */
  lemma UniformSplit(elapsed: int, totalDuration: int, n: nat, k: nat)
    requires elapsed >= 0 && k < n
    requires k * PreviewDurationMs(totalDuration) <= elapsed * n < (k + 1) * PreviewDurationMs(totalDuration)
    ensures SceneIndex(PreviewProgress(elapsed, totalDuration), n) == k
  {
    var d := PreviewDurationMs(totalDuration);
    SceneIndexInIntegers(elapsed, totalDuration, n);
    assert elapsed * n / d == k by {
      DivBetween(elapsed * n, d, k);
    }
  }

  /** Conversely, within the preview length scene k is shown only during its
      own share: the index determines which k-th of the time has elapsed. */
  lemma UniformSplitConverse(elapsed: int, totalDuration: int, n: nat, k: int)
    requires 0 <= elapsed < PreviewDurationMs(totalDuration) && n >= 1
    requires SceneIndex(PreviewProgress(elapsed, totalDuration), n) == k
    ensures k * PreviewDurationMs(totalDuration) <= elapsed * n < (k + 1) * PreviewDurationMs(totalDuration)
  {
    var d := PreviewDurationMs(totalDuration);
    SceneIndexInIntegers(elapsed, totalDuration, n);
    QuotientBelow(elapsed, n, d);
  }

  /** For 0 <= e < d, the quotient e * n div d is below n and brackets e * n. */
  lemma QuotientBelow(e: int, n: nat, d: int)
    requires 0 <= e < d && n >= 1
    ensures e * n / d < n
    ensures (e * n / d) * d <= e * n < (e * n / d + 1) * d
  {
    var q := e * n / d;
    var m := (e * n) % d;
    assert e * n == q * d + m && 0 <= m < d;
    MulMonotone(e, d - 1, n);
    assert (d - 1) * n == n * d - n;
    LessFromMul(q, n, d);
    assert (q + 1) * d == q * d + d;
  }

  lemma DivBetween(a: int, d: int, k: int)
    requires d > 0 && k * d <= a < (k + 1) * d
    ensures a / d == k
  {
    var q := a / d;
    assert a == q * d + a % d;
    LessFromMul(q, k + 1, d);
    assert (k - 1) * d == k * d - d;
    LessFromMul(k - 1, q, d);
  }

  /** One animation frame of the preview. */
  datatype Frame = Frame(progress: real, index: int, playing: bool)

  /** The preview tick `elapsed` milliseconds after Play: its progress, the
      scene shown, and whether another frame is requested. */
  function PreviewTick(elapsed: int, totalDuration: int, sceneCount: nat): (f: Frame)
    ensures 0.0 <= f.progress <= 1.0 || elapsed < 0
    ensures f.playing <==> elapsed < PreviewDurationMs(totalDuration)
    ensures f.playing <==> f.progress < 1.0
    ensures sceneCount >= 1 && elapsed >= 0 ==> 0 <= f.index < sceneCount
    ensures sceneCount >= 1 && !f.playing ==> f.index == sceneCount - 1
  {
    var pct := PreviewProgress(elapsed, totalDuration);
    Frame(pct, SceneIndex(pct, sceneCount), pct < 1.0)
  }

  /** Frames later in time never go back in progress or in scene. */
  lemma PreviewTickMonotone(e1: int, e2: int, totalDuration: int, sceneCount: nat)
    requires e1 <= e2
    ensures PreviewTick(e1, totalDuration, sceneCount).progress <= PreviewTick(e2, totalDuration, sceneCount).progress
    ensures PreviewTick(e1, totalDuration, sceneCount).index <= PreviewTick(e2, totalDuration, sceneCount).index
  {
    ClampedRatioMonotone(e1, e2, PreviewDurationMs(totalDuration));
    SceneIndexMonotone(PreviewProgress(e1, totalDuration), PreviewProgress(e2, totalDuration), sceneCount);
  }

  /** The simulated export takes three seconds. */
  const ExportTotalMs := 3000

  /** The share of the three-second export that has elapsed since t0, capped at 1. */
  function ExportProgress(now: int, t0: int): (r: real)
    ensures r <= 1.0
    ensures now >= t0 ==> r >= 0.0
    ensures r == 1.0 <==> now - t0 >= ExportTotalMs
  {
    ClampedRatio(now - t0, ExportTotalMs)
  }

  /** What the panel shows of an export. */
  datatype ExportView = ExportView(exporting: bool, progress: real)

  /** `startExport`: exporting, at zero progress. */
  function StartExport(): (v: ExportView)
    ensures v.exporting && v.progress == 0.0
  {
    ExportView(true, 0.0)
  }

  /** One interval tick at time `now` of an export started at t0. Once the
      export has finished its interval is cleared, so no further tick changes
      anything. */
  function ExportTick(v: ExportView, t0: int, now: int): (r: ExportView)
    ensures !v.exporting ==> r == v
    ensures v.exporting ==> r.progress == ExportProgress(now, t0)
    ensures v.exporting ==> (r.exporting <==> now - t0 < ExportTotalMs)
  {
    if !v.exporting then v
    else
      var pct := ExportProgress(now, t0);
      if pct >= 1.0 then ExportView(false, pct) else ExportView(true, pct)
  }

  /** The view after the interval has fired at each of the given times, in
      order. The export is still running exactly when no tick came 3000 ms or
      more after the start; a finished export shows full progress, a running
      one the fraction of its latest tick. */
  function RunExport(t0: int, times: seq<int>): (r: ExportView)
    ensures r.exporting <==> forall k :: 0 <= k < |times| ==> times[k] - t0 < ExportTotalMs
    ensures !r.exporting ==> r.progress == 1.0
    ensures r.exporting && |times| == 0 ==> r.progress == 0.0
    ensures r.exporting && |times| > 0 ==> r.progress == ExportProgress(times[|times| - 1], t0)
  {
    if |times| == 0 then StartExport() else ExportTick(RunExport(t0, times[..|times| - 1]), t0, times[|times| - 1])
  }

  /** Every tick comes at or after the start. */
  ghost predicate AfterStart(t0: int, times: seq<int>)
  {
    forall k :: 0 <= k < |times| ==> t0 <= times[k]
  }

  /** Ticks at or after the start, on a clock that never runs backwards. */
  ghost predicate ValidTimes(t0: int, times: seq<int>)
  {
    AfterStart(t0, times) && forall i, j :: 0 <= i < j < |times| ==> times[i] <= times[j]
  }

  /** Throughout an export, progress stays in [0, 1] and `exporting` is false
      exactly when progress has reached 1, which happens at the first tick
      three seconds or more after the start. */
  lemma ExportInvariant(t0: int, times: seq<int>)
    requires AfterStart(t0, times)
    ensures var v := RunExport(t0, times);
      && 0.0 <= v.progress <= 1.0
      && (v.exporting <==> v.progress < 1.0)
      && (v.exporting <==> forall k :: 0 <= k < |times| ==> times[k] - t0 < ExportTotalMs)
  {
  }

  /** Export progress never decreases from one tick to a later one. */
  lemma {:induction false} ExportMonotone(t0: int, times: seq<int>, m: nat)
    requires ValidTimes(t0, times) && m <= |times|
    ensures RunExport(t0, times[..m]).progress <= RunExport(t0, times).progress
    decreases |times| - m
  {
    if m < |times| {
      var next := times[..m + 1];
      assert next[..m] == times[..m];
      assert ValidTimes(t0, next);
      assert AfterStart(t0, times[..m]);
      ExportInvariant(t0, times[..m]);
      var v := RunExport(t0, times[..m]);
      if v.exporting && m > 0 {
        ClampedRatioMonotone(times[m - 1] - t0, times[m] - t0, ExportTotalMs);
        assert v.progress == ExportProgress(times[m - 1], t0) by {
          assert times[..m][..m - 1] == times[..m - 1];
        }
      }
      ExportMonotone(t0, times, m + 1);
    } else {
      assert times[..m] == times;
    }
  }

  /** Progress follows the clock it is given: if the clock steps back between
      two ticks, the bar steps back too. */
  lemma ProgressFollowsClock()
    ensures RunExport(0, [2000, 1000]).progress < RunExport(0, [2000]).progress
  {
    assert [2000, 1000][..1] == [2000];
    assert [2000][..0] == [];
  }

  /** The branding logo: the first logo with the
      id, or nothing when no logo carries it. */
  function FindLogo(lib: Library, logoId: string): (r: Option<MediaItem>)
    ensures r.Some? ==> r.value.id == logoId
    ensures r.Some? ==> exists k :: 0 <= k < |lib.logos| && lib.logos[k] == r.value
                           && forall j :: 0 <= j < k ==> lib.logos[j].id != logoId
    ensures r.None? <==> forall k :: 0 <= k < |lib.logos| ==> lib.logos[k].id != logoId
  {
    match FirstIndex(lib.logos, (l: MediaItem) => l.id == logoId)
    case Some(k) => Some(lib.logos[k])
    case None => None
  }

  /** With no logo selected (the empty id) nothing is found, as long as no
      logo has an empty id. */
  lemma NoLogoSelected(lib: Library)
    requires forall k :: 0 <= k < |lib.logos| ==> lib.logos[k].id != ""
    ensures FindLogo(lib, "") == None
  {
  }

  /** After the logo with an id is removed from the library, the lookup for
      that id finds nothing. */
  lemma RemovedLogoNotFound(lib: Library, logoId: string)
    ensures FindLogo(RemoveItem(lib, Logos, logoId), logoId) == None
  {
  }

  /** A freshly uploaded logo whose id no stored logo carries is the one the
      lookup finds, with item type `logo`. */
  lemma UploadedLogoFound(lib: Library, u: Upload)
    requires forall k :: 0 <= k < |lib.logos| ==> lib.logos[k].id != u.id
    ensures FindLogo(AddFiles(lib, Logos, [u]), u.id) == Some(MediaItem(u.id, u.name, u.url, "logo"))
  {
    var after := AddFiles(lib, Logos, [u]);
    var n := |lib.logos|;
    assert Items(after, Logos)[..n] == lib.logos;
    assert after.logos[n].kind == ItemType(Logos) == "logo" by {
      ItemTypeNames();
    }
    assert after.logos == lib.logos + [after.logos[n]];
    var r := FindLogo(after, u.id);
    var k :| 0 <= k < |after.logos| && after.logos[k] == r.value
           && forall j :: 0 <= j < k ==> after.logos[j].id != u.id;
    assert k == n;
  }
}

=== FILE: seqs.dfy ===
/** Generic sequence operations the storyboard and the media library are built
    from: the two-step `Array.prototype.splice` move, `filter`, `findIndex`. */
module Seqs {
  import opened Wrappers

  function Min(a: int, b: int): int { if a <= b then a else b }
  function Max(a: int, b: int): int { if a <= b then b else a }

  /** Splicing one element out: the sequence without its element at index i. */
  function RemoveAt<T>(s: seq<T>, i: nat): (r: seq<T>)
    requires i < |s|
    ensures |r| == |s| - 1
    ensures forall k :: 0 <= k < i ==> r[k] == s[k]
    ensures forall k :: i <= k < |r| ==> r[k] == s[k + 1]
    ensures multiset(r) + multiset{s[i]} == multiset(s)
  {
    assert s == s[..i] + [s[i]] + s[i + 1..];
    s[..i] + s[i + 1..]
  }

  /** Splicing one element in: x inserted so that it sits at index j. */
  function InsertAt<T>(s: seq<T>, j: nat, x: T): (r: seq<T>)
    requires j <= |s|
    ensures |r| == |s| + 1
    ensures r[j] == x
    ensures forall k :: 0 <= k < j ==> r[k] == s[k]
    ensures forall k :: j < k < |r| ==> r[k] == s[k - 1]
    ensures multiset(r) == multiset(s) + multiset{x}
  {
    assert s == s[..j] + s[j..];
    s[..j] + [x] + s[j..]
  }

  /** Take the element at `from` out and reinsert it at `to` of the shortened
      sequence: the element ends up at index `to`, everything between the two
      indices shifts by one towards the vacated slot, the rest stays put. */
  function Move<T>(s: seq<T>, from: nat, to: nat): (r: seq<T>)
    requires from < |s| && to < |s|
    ensures |r| == |s|
    ensures multiset(r) == multiset(s)
    ensures r[to] == s[from]
    ensures forall k :: 0 <= k < |s| && (k < Min(from, to) || Max(from, to) < k) ==> r[k] == s[k]
    ensures from < to ==> forall k :: from <= k < to ==> r[k] == s[k + 1]
    ensures to < from ==> forall k :: to < k <= from ==> r[k] == s[k - 1]
  {
    InsertAt(RemoveAt(s, from), to, s[from])
  }

  /** Exchange the elements at positions i and j: an independent description
      of an adjacent move. */
  function Swap<T>(s: seq<T>, i: nat, j: nat): (r: seq<T>)
    requires i < |s| && j < |s|
    ensures |r| == |s|
    ensures r[i] == s[j] && r[j] == s[i]
    ensures forall k :: 0 <= k < |s| && k != i && k != j ==> r[k] == s[k]
    ensures multiset(r) == multiset(s)
  {
    s[i := s[j]][j := s[i]]
  }

  /** Swapping the same two positions twice restores the sequence. */
  lemma SwapTwice<T>(s: seq<T>, i: nat, j: nat)
    requires i < |s| && j < |s|
    ensures Swap(Swap(s, i, j), i, j) == s
  {
    var r := Swap(Swap(s, i, j), i, j);
    assert forall k :: 0 <= k < |s| ==> r[k] == s[k];
  }

  /** Moving back from `to` to `from` undoes a move. */
  lemma MoveInverse<T>(s: seq<T>, from: nat, to: nat)
    requires from < |s| && to < |s|
    ensures Move(Move(s, from, to), to, from) == s
  {
    var m := Move(s, from, to);
    var r := Move(m, to, from);
    forall k | 0 <= k < |s|
      ensures r[k] == s[k]
    {
      if k == from {
      } else if from < to && from < k <= to {
        assert r[k] == m[k - 1];
      } else if to < from && to <= k < from {
        assert r[k] == m[k + 1];
      }
    }
  }

  /** Moving an element onto its own index changes nothing. */
  lemma MoveSelf<T>(s: seq<T>, i: nat)
    requires i < |s|
    ensures Move(s, i, i) == s
  {
    var r := Move(s, i, i);
    assert forall k :: 0 <= k < |s| ==> r[k] == s[k];
  }

  /** A move by one position is a swap of the two neighbours. */
  lemma MoveAdjacentIsSwap<T>(s: seq<T>, i: nat)
    requires i + 1 < |s|
    ensures Move(s, i, i + 1) == Swap(s, i, i + 1)
    ensures Move(s, i + 1, i) == Swap(s, i, i + 1)
  {
    var a := Move(s, i, i + 1);
    var b := Move(s, i + 1, i);
    var w := Swap(s, i, i + 1);
    forall k | 0 <= k < |s|
      ensures a[k] == w[k] && b[k] == w[k]
    {
    }
  }

  /** A slice that drops the final element: everything but the last
      element, and the empty sequence stays empty. */
  function DropLast<T>(s: seq<T>): (r: seq<T>)
    ensures |s| == 0 ==> r == []
    ensures |s| > 0 ==> r + [s[|s| - 1]] == s
  {
    if |s| == 0 then [] else s[..|s| - 1]
  }

  /** r can be obtained from s by deleting elements (relative order kept). */
  ghost predicate IsSubsequence<T>(r: seq<T>, s: seq<T>)
    decreases |s|
  {
    |r| == 0 ||
    (|s| > 0 && ((r[0] == s[0] && IsSubsequence(r[1..], s[1..])) || IsSubsequence(r, s[1..])))
  }

  /** Filtering: the elements satisfying keep, in their order.
      The result is the subsequence of s holding every kept element with its
      full multiplicity and nothing else. */
  function Filter<T(!new)>(s: seq<T>, keep: T -> bool): (r: seq<T>)
    ensures |r| <= |s|
    ensures forall k :: 0 <= k < |r| ==> keep(r[k])
    ensures forall x :: multiset(r)[x] == if keep(x) then multiset(s)[x] else 0
    ensures IsSubsequence(r, s)
  {
    if |s| == 0 then []
    else
      var rest := Filter(s[1..], keep);
      assert s == [s[0]] + s[1..];
      if keep(s[0]) then
        var r := [s[0]] + rest;
        assert r[1..] == rest;
        r
      else
        assert |rest| > 0 ==> rest[0] != s[0];
        rest
  }

  /** Filtering distributes over concatenation, so it keeps relative order. */
  lemma {:induction false} FilterConcat<T(!new)>(a: seq<T>, b: seq<T>, keep: T -> bool)
    ensures Filter(a + b, keep) == Filter(a, keep) + Filter(b, keep)
  {
    if |a| == 0 {
      assert a + b == b;
    } else {
      assert (a + b)[1..] == a[1..] + b;
      FilterConcat(a[1..], b, keep);
    }
  }

  /** Nothing is dropped when every element is kept. */
  lemma {:induction false} FilterKeepsAll<T(!new)>(s: seq<T>, keep: T -> bool)
    requires forall k :: 0 <= k < |s| ==> keep(s[k])
    ensures Filter(s, keep) == s
  {
    if |s| > 0 {
      FilterKeepsAll(s[1..], keep);
      assert s == [s[0]] + s[1..];
    }
  }

  /** The first index whose element satisfies p, if any. */
  function FirstIndex<T>(s: seq<T>, p: T -> bool): (r: Option<nat>)
    ensures r.Some? ==> r.value < |s| && p(s[r.value])
    ensures r.Some? ==> forall k :: 0 <= k < r.value ==> !p(s[k])
    ensures r.None? <==> forall k :: 0 <= k < |s| ==> !p(s[k])
  {
    if |s| == 0 then None
    else if p(s[0]) then Some(0)
    else
      match FirstIndex(s[1..], p)
      case None => None
      case Some(i) => Some(i + 1)
  }
}

=== FILE: storyboard.dfy ===
/** The storyboard's scene list: append, remove by id, keyboard/button moves,
    drag-and-drop moves and patch updates, each a pure map from the previous
    list to the next one. */
module Storyboard {
  import opened Wrappers
  import opened Seqs
  import Decimal
  import opened MediaLibrary

  /** The four options of the transition selector. */
  datatype Transition = Fade | Slide | Wipe | CrossZoom

  /** One storyboard scene. `duration` is in whole seconds; `media` holds the
      library items attached to the scene, in attachment order. */
  datatype Scene = Scene(
    id: string,
    title: string,
    description: string,
    transition: Transition,
    duration: int,
    media: seq<MediaItem>,
    audioId: Option<string>)

  datatype Direction = Up | Down

  /** A partial scene: each Some field overrides, each None field keeps the
      scene's value, as an object spread merges them. `audioId` is
      doubly optional because a patch can set it to null. */
  datatype Patch = Patch(
    title: Option<string>,
    description: Option<string>,
    transition: Option<Transition>,
    duration: Option<int>,
    audioId: Option<Option<string>>)

  /** The ids of the scenes, in list order. */
  function Ids(s: seq<Scene>): (r: seq<string>)
    ensures |r| == |s|
    ensures forall k :: 0 <= k < |s| ==> r[k] == s[k].id
  {
    seq(|s|, k requires 0 <= k < |s| => s[k].id)
  }

  ghost predicate UniqueIds(s: seq<Scene>)
  {
    forall i, j :: 0 <= i < j < |s| ==> s[i].id != s[j].id
  }

  /** The scene `addScene` creates when the list has n scenes. */
  function NewScene(id: string, n: nat): Scene
  {
    Scene(id, "Scene " + Decimal.FromNat(n + 1), "", Fade, 5, [], None)
  }

  /** `addScene`: one default scene appended; the earlier scenes unchanged. */
  function AddScene(s: seq<Scene>, newId: string): (r: seq<Scene>)
    ensures |r| == |s| + 1
    ensures r[..|s|] == s
    ensures r[|s|].id == newId && r[|s|].description == "" && r[|s|].transition == Fade
    ensures r[|s|].duration == 5 && r[|s|].media == [] && r[|s|].audioId == None
    ensures |r[|s|].title| > 6 && r[|s|].title[..6] == "Scene "
    ensures forall k :: 6 <= k < |r[|s|].title| ==> Decimal.IsDigit(r[|s|].title[k])
    ensures r[|s|].title[6] != '0'
    ensures Decimal.Value(r[|s|].title[6..]) == |r|
  {
    var sc := NewScene(newId, |s|);
    Decimal.ValueFromNat(|s| + 1);
    assert sc.title[6..] == Decimal.FromNat(|s| + 1);
    assert (s + [sc])[..|s|] == s;
    s + [sc]
  }

  /** `removeScene`: every scene with the id dropped, the others kept in order. */
  function RemoveScene(s: seq<Scene>, id: string): (r: seq<Scene>)
    ensures forall k :: 0 <= k < |r| ==> r[k].id != id
    ensures forall x :: multiset(r)[x] == if x.id != id then multiset(s)[x] else 0
    ensures IsSubsequence(r, s)
  {
    Filter(s, (x: Scene) => x.id != id)
  }

  /** Removing an id no scene carries changes nothing. */
  lemma RemoveAbsentScene(s: seq<Scene>, id: string)
    requires forall k :: 0 <= k < |s| ==> s[k].id != id
    ensures RemoveScene(s, id) == s
  {
    FilterKeepsAll(s, (x: Scene) => x.id != id);
  }

  /** Removing the same id twice is removing it once. */
  lemma RemoveSceneIdempotent(s: seq<Scene>, id: string)
    ensures RemoveScene(RemoveScene(s, id), id) == RemoveScene(s, id)
  {
    RemoveAbsentScene(RemoveScene(s, id), id);
  }

  /** `moveScene`: the scene at i is spliced out and reinserted one slot up or
      down, the target index clamped to the list. */
  function MoveScene(s: seq<Scene>, i: nat, dir: Direction): (r: seq<Scene>)
    requires i < |s|
    ensures |r| == |s| && multiset(r) == multiset(s)
    ensures dir == Up && i > 0 ==> r == Swap(s, i - 1, i)
    ensures dir == Up && i == 0 ==> r == s
    ensures dir == Down && i + 1 < |s| ==> r == Swap(s, i, i + 1)
    ensures dir == Down && i + 1 == |s| ==> r == s
  {
    var newIndex := if dir == Up then Max(i - 1, 0) else Min(i + 1, |s| - 1);
    if newIndex == i then
      MoveSelf(s, i);
      Move(s, i, newIndex)
    else if newIndex < i then
      MoveAdjacentIsSwap(s, newIndex);
      Move(s, i, newIndex)
    else
      MoveAdjacentIsSwap(s, i);
      Move(s, i, newIndex)
  }

  /** Moving a scene up and then moving it back down restores the list. */
  lemma MoveUpThenDown(s: seq<Scene>, i: nat)
    requires 1 <= i < |s|
    ensures MoveScene(MoveScene(s, i, Up), i - 1, Down) == s
  {
    var u := MoveScene(s, i, Up);
    var d := MoveScene(u, i - 1, Down);
    assert u == Swap(s, i - 1, i);
    assert d == Swap(u, i - 1, i);
    SwapTwice(s, i - 1, i);
  }

  /** The index of the first scene with the id, if any. */
  function FindScene(s: seq<Scene>, id: string): (r: Option<nat>)
    ensures r.Some? ==> r.value < |s| && s[r.value].id == id
    ensures r.Some? ==> forall k :: 0 <= k < r.value ==> s[k].id != id
    ensures r.None? <==> forall k :: 0 <= k < |s| ==> s[k].id != id
  {
    FirstIndex(s, (x: Scene) => x.id == id)
  }

  /** Whether a drop of sourceId onto targetId reorders anything. */
  predicate DropApplies(s: seq<Scene>, sourceId: string, targetId: string)
  {
    sourceId != "" && sourceId != targetId && FindScene(s, sourceId).Some? && FindScene(s, targetId).Some?
  }

  /** `onDrop`: the first scene with sourceId is spliced out and reinserted at
      the index the first scene with targetId had. An empty source id, equal
      ids or a missing id leave the list as it is. */
  function DropScene(s: seq<Scene>, sourceId: string, targetId: string): (r: seq<Scene>)
    ensures |r| == |s| && multiset(r) == multiset(s)
    ensures !DropApplies(s, sourceId, targetId) ==> r == s
    ensures DropApplies(s, sourceId, targetId) ==>
      var from := FindScene(s, sourceId).value;
      var to := FindScene(s, targetId).value;
      && from != to
      && r[to] == s[from]
      && (forall k :: 0 <= k < |s| && (k < Min(from, to) || Max(from, to) < k) ==> r[k] == s[k])
      && (from < to ==> forall k :: from <= k < to ==> r[k] == s[k + 1])
      && (to < from ==> forall k :: to < k <= from ==> r[k] == s[k - 1])
  {
    if sourceId == "" || sourceId == targetId then s
    else
      match (FindScene(s, sourceId), FindScene(s, targetId))
      case (Some(from), Some(to)) => Move(s, from, to)
      case _ => s
  }

  /** With distinct ids, dropping a scene onto its upper neighbour is the
      keyboard move up. */
  lemma DropOnUpperIsMoveUp(s: seq<Scene>, i: nat)
    requires UniqueIds(s)
    requires 0 < i < |s| && s[i].id != ""
    ensures DropScene(s, s[i].id, s[i - 1].id) == MoveScene(s, i, Up)
  {
    FindUnique(s, i);
    FindUnique(s, i - 1);
    assert DropScene(s, s[i].id, s[i - 1].id) == Move(s, i, i - 1);
    MoveAdjacentIsSwap(s, i - 1);
  }

  /** With distinct ids, dropping a scene onto its lower neighbour is the
      keyboard move down. */
  lemma DropOnLowerIsMoveDown(s: seq<Scene>, i: nat)
    requires UniqueIds(s)
    requires i + 1 < |s| && s[i].id != ""
    ensures DropScene(s, s[i].id, s[i + 1].id) == MoveScene(s, i, Down)
  {
    FindUnique(s, i);
    FindUnique(s, i + 1);
    assert DropScene(s, s[i].id, s[i + 1].id) == Move(s, i, i + 1);
    MoveAdjacentIsSwap(s, i);
  }

  /** With distinct ids, a scene's id is found at its own index. */
  lemma FindUnique(s: seq<Scene>, i: nat)
    requires UniqueIds(s) && i < |s|
    ensures FindScene(s, s[i].id) == Some(i)
  {
  }

  /** Dropping the moved scene back onto the scene now occupying its old slot
      undoes a drop, when ids are distinct. */
  lemma DropInverse(s: seq<Scene>, sourceId: string, targetId: string)
    requires UniqueIds(s) && DropApplies(s, sourceId, targetId)
    ensures
      var from := FindScene(s, sourceId).value;
      var d := DropScene(s, sourceId, targetId);
      DropScene(d, sourceId, d[from].id) == s
  {
    var from := FindScene(s, sourceId).value;
    var to := FindScene(s, targetId).value;
    var d := DropScene(s, sourceId, targetId);
    assert d == Move(s, from, to);
    assert UniqueIds(d) by {
      forall i, j | 0 <= i < j < |d|
        ensures d[i].id != d[j].id
      {
        MoveIndexOf(s, from, to, i);
        MoveIndexOf(s, from, to, j);
      }
    }
    FindUnique(d, to);
    FindUnique(d, from);
    MoveInverse(s, from, to);
  }

  /** Every slot of a move holds some original element, and distinct slots
      hold elements from distinct original slots. */
  lemma MoveIndexOf(s: seq<Scene>, from: nat, to: nat, k: nat)
    requires from < |s| && to < |s| && k < |s|
    ensures Move(s, from, to)[k] == s[Source(from, to, k)]
    ensures Source(from, to, k) < |s|
  {
  }

  /** The original index of the element a move puts at slot k. */
  function Source(from: nat, to: nat, k: nat): nat
  {
    if k == to then from
    else if from < to && from <= k < to then k + 1
    else if to < from && to < k <= from then k - 1
    else k
  }

  /** One scene with the patch's present fields written over it. */
  function ApplyPatch(sc: Scene, p: Patch): (r: Scene)
    ensures r.id == sc.id && r.media == sc.media
    ensures r.title == (if p.title.Some? then p.title.value else sc.title)
    ensures r.description == (if p.description.Some? then p.description.value else sc.description)
    ensures r.transition == (if p.transition.Some? then p.transition.value else sc.transition)
    ensures r.duration == (if p.duration.Some? then p.duration.value else sc.duration)
    ensures r.audioId == (if p.audioId.Some? then p.audioId.value else sc.audioId)
  {
    sc.(title := p.title.ValueOr(sc.title),
        description := p.description.ValueOr(sc.description),
        transition := p.transition.ValueOr(sc.transition),
        duration := p.duration.ValueOr(sc.duration),
        audioId := p.audioId.ValueOr(sc.audioId))
  }

  /** Every scene with the id rewritten by f, every other scene kept; the
      shape shared by the scene editor and both assignment handlers. */
  function MapMatching(s: seq<Scene>, id: string, f: Scene -> Scene): (r: seq<Scene>)
    ensures |r| == |s|
    ensures forall k :: 0 <= k < |s| ==> r[k] == if s[k].id == id then f(s[k]) else s[k]
    ensures (forall sc :: f(sc).id == sc.id) ==> Ids(r) == Ids(s)
  {
    seq(|s|, k requires 0 <= k < |s| => if s[k].id == id then f(s[k]) else s[k])
  }

  /** Two rewrites of the scenes with one id compose: when the first rewrite
      keeps ids, the second one reaches exactly the scenes the first changed. */
  lemma MapMatchingTwice(s: seq<Scene>, id: string, f: Scene -> Scene, g: Scene -> Scene, h: Scene -> Scene)
    requires forall sc :: f(sc).id == sc.id
    requires forall sc :: g(f(sc)) == h(sc)
    ensures MapMatching(MapMatching(s, id, f), id, g) == MapMatching(s, id, h)
  {
    var once := MapMatching(s, id, f);
    var twice := MapMatching(once, id, g);
    var direct := MapMatching(s, id, h);
    forall k | 0 <= k < |s|
      ensures twice[k] == direct[k]
    {
      assert once[k].id == s[k].id;
    }
  }

  /** `updateScene`: the patch merged into every scene with the id; the other
      scenes, the list length and the order of ids unchanged. */
  function UpdateScene(s: seq<Scene>, id: string, p: Patch): (r: seq<Scene>)
    ensures |r| == |s| && Ids(r) == Ids(s)
    ensures forall k :: 0 <= k < |s| && s[k].id != id ==> r[k] == s[k]
    ensures forall k :: 0 <= k < |s| && s[k].id == id ==>
      && r[k].media == s[k].media
      && r[k].title == (if p.title.Some? then p.title.value else s[k].title)
      && r[k].description == (if p.description.Some? then p.description.value else s[k].description)
      && r[k].transition == (if p.transition.Some? then p.transition.value else s[k].transition)
      && r[k].duration == (if p.duration.Some? then p.duration.value else s[k].duration)
      && r[k].audioId == (if p.audioId.Some? then p.audioId.value else s[k].audioId)
  {
    MapMatching(s, id, (sc: Scene) => ApplyPatch(sc, p))
  }

  /** Applying the same patch twice is applying it once. */
  lemma UpdateSceneIdempotent(s: seq<Scene>, id: string, p: Patch)
    ensures UpdateScene(UpdateScene(s, id, p), id, p) == UpdateScene(s, id, p)
  {
    var f := (sc: Scene) => ApplyPatch(sc, p);
    MapMatchingTwice(s, id, f, f, f);
  }

  /** Updating an id no scene carries changes nothing. */
  lemma UpdateAbsentScene(s: seq<Scene>, id: string, p: Patch)
    requires forall k :: 0 <= k < |s| ==> s[k].id != id
    ensures UpdateScene(s, id, p) == s
  {
  }
}

=== FILE: wrappers.dfy ===
/** Optional values: the model's stand-in for JavaScript's `null`/`undefined`
    and for a search that finds nothing. */
module Wrappers {

  datatype Option<+T> = None | Some(value: T) {

    /** The held value when there is one, otherwise fallback. */
    function ValueOr(fallback: T): T
    {
      if Some? then value else fallback
    }
  }
}
